=== FILE: README.md ===
# BlockchainNode ledger and consensus, in Dafny

A model of the ledger and consensus core of BlockchainNode, a single-package Go
node. Each node holds a chain of signed blocks and a pool of pending
transactions. Registered validators mine blocks, no validator signing two in a row. Nodes reconcile
diverging chains by adopting the longest valid chain offered by a validator
peer.

The model is functional. The Go globals `chain` and `currentTransactions`,
together with the contents of the node registry file, become one immutable
`Ledger.NodeState`. Every handler becomes a function from a state to the next
state and the handler's answer. Hashing, hex encoding, signing and signature
verification are not computed. They are function values passed in (`Types.Crypto`,
`Types.Identity`). Properties that need them to behave state that as a
hypothesis:

- `Types.SignsVerifiably`: RSA-PSS is correct for the node's private key, so
  what it signs, the key's public half verifies.
- `Types.PublishesOwnKey`: the published key (key.pub, stamped on blocks)
  accepts whatever the private key's public half (from key.pem) accepts. The
  node reads the two files separately and never checks that they match.
  `Api.MismatchedKeysBreakChain` shows a mine that breaks the chain without it.

Modules, one per component:

- `Types`: transactions, blocks, signed blocks, and the abstract crypto (main.go).
- `Registry`: the node registry of nodes.go: lookups, listing, upsert, self-registration.
- `Ledger`: node state, block construction, the transaction pool, start-up (main.go).
- `Validator`: the chain validator `isValidChain` (main.go).
- `Consensus`: the longest-valid-chain resolver `resolveConflicts` (main.go).
- `Api`: the state-changing logic of the handlers `mine`, `getVerifiedTransactions` and `makeNodeValidator` (api.go).

Behaviours of the code worth knowing, which the model keeps:

- An empty chain is not valid input: `isValidChain` reads `chain[0]` unguarded, so `Validator.IsValidChain` requires a non-empty chain.
- `addNewTransaction` returns the tip's `Index + 1`, not the chain length. `Ledger.AddNewTransaction` proves the two agree whenever block indices equal positions. The validator never checks indices, so an adopted peer chain can break that.
- `isValidChain` never checks the genesis block, and never checks a block's index against its position.
- The decode and parse errors at main.go:132-134 are overwritten before they are read. Whatever the base64 decoder returns, a partial result on error included, is what gets verified, so decoding is folded into the abstract `verify`. A signer key whose decoded bytes hold no parsable PKIX RSA public key is different: see "Left out".
- `makeNodeValidator` checks the serving node's own key, not the requester's (api.go:200). The request body carries only `url` and `public_key` (api.go:203-206), so any client can get any key promoted by a validator node.
- A restart demotes the node. When the registry file exists, `addCurrentNode` (nodes.go:62-69) overwrites self's first entry with flag 0 (`Registry.AddCurrentNode`, the `Some` case). Unless a later entry with the same key carries flag 1, a validator that restarts can no longer mine or promote. If it was the only validator, no identity can mine or promote against this registry, which is the `nodes.csv` in that node's working directory.

## Model

| member | source | states |
|---|---|---|
| Registry.StringInSlice | nodes.go:73-80 | the scan returns true exactly when the string occurs in the list |
| Registry.CheckPubkeyExists | nodes.go:119-129 | the scan returns true exactly when some registry entry carries the key |
| Registry.CheckIfValidator | nodes.go:131-143 | the scan returns true exactly when some entry carries the key and the flag 1; a later flagged entry with the same key still counts |
| Registry.GetNodesList | nodes.go:98-111 | with `false` the whole registry; with `true` an entry is listed exactly when it is in the registry with flag 1 |
| Registry.GetNodesListOrder | nodes.go:98-111 | the validators-only list keeps registry order: each entry contributes itself (if flagged) or nothing, in place |
| Registry.FirstWithKey | nodes.go:27-32 | the position found holds the key and no earlier entry holds it |
| Registry.ReplaceFirst | nodes.go:27-32 | the inner loop overwrites exactly the first entry with the node's key, or changes nothing when there is none |
| Registry.AddToList | nodes.go:15-34 | the registry with every entry of a registered key overwritten in place, followed by the new nodes whose key was not registered, in order |
| Registry.AddToListReplaces | nodes.go:26-32 | a node whose key is registered replaces the first entry with that key in place; length and other positions kept |
| Registry.AddToListAppends | nodes.go:23-25 | a node whose key is not registered is appended at the end |
| Registry.AddToListSnapshot | nodes.go:18-25 | keys are snapshotted before the loop: new nodes with unregistered keys are all appended in order, even two with the same key |
| Registry.AddToListShape | nodes.go:15-34 | the registered entries keep their keys, the nodes with unregistered keys are appended in order, and entries whose key no new node carries are untouched |
| Registry.AddToListMakesValidator | nodes.go:15-34 | after upserting `{url, k, 1}`, `k` is a validator |
| Registry.AddToListKeepsOtherKeys | nodes.go:15-34 | upserting one node does not change the validator status of any other key |
| Registry.AddCurrentNode | nodes.go:53-71 | self is registered; with flag 1 and alone when no registry file existed, otherwise its first entry is `{path, key, 0}` |
| Ledger.CreateNewBlock | main.go:82-104 | index is the chain length; transactions are the whole pool in order; an empty previous hash means the tip's hash; with addToChain the chain grows by one unsigned block at the end and the pool empties, otherwise nothing changes; chain plus pool transactions are conserved; indices stay equal to positions |
| Ledger.AddNewTransaction | main.go:154-157 | the transaction is appended to the pool, chain unchanged; returns tip index + 1, which is the chain length when indices equal positions |
| Ledger.Startup | main.go:70-72 | start-up registers self and commits the genesis block: index 0, previous hash "1", empty pool as transactions, empty signature and signer |
| Ledger.ChainTransactionsMembership | api.go:134-141 | a transaction is listed exactly when some block of the chain holds it |
| Ledger.ChainTransactionsAppend | api.go:134-141 | the transactions of concatenated chains are the concatenation of their transactions |
| Validator.IsValidChain | main.go:111-147 | the walk accepts exactly the chains in which every block passes the four checks against its predecessor |
| Validator.ValidChainBlock | main.go:119-140 | in a valid chain every block after the first links to the hash of its predecessor, has a different signer, is signed by a validator and carries a verifying signature |
| Validator.SingleBlockValid | main.go:111-115 | a one-block chain is valid whatever it holds |
| Validator.ValidAppend | main.go:115-146 | appending a block keeps a chain valid exactly when the block passes the four checks against the tip |
| Validator.ValidPrefix | main.go:115-146 | every non-empty prefix of a valid chain is valid |
| Consensus.Select | main.go:184-200 | the peer loop ends with its starting choice, or with the chain of a response that is valid and longer than the starting length |
| Consensus.SelectSpec | main.go:184-200 | the peer loop records nothing new when no response is valid and longer; otherwise it ends with the first response of maximal length among the valid strictly longer ones |
| Consensus.ResolveSpec | main.go:180-209 | replaced exactly when some response is valid and strictly longer; the new chain is valid, strictly longer and first of maximal length, with pool and registry kept; otherwise nothing changes |
| Consensus.Resolve | main.go:180-209 | pool and registry are kept; without a replacement nothing changes; a replacement is valid and strictly longer |
| Consensus.EqualLengthKeepsLocal | main.go:194 | when no response is longer than the local chain, equal-length ones included, nothing changes |
| Consensus.ResolveIdempotent | main.go:180-209 | resolving again against the same responses reports no replacement and changes nothing |
| Consensus.PeerResponses | main.go:187-188 | one response per peer, in order, each what the peer's URL answered |
| Consensus.ResolveConflicts | main.go:180-209 | pool and registry are kept; without a replacement nothing changes; a replacement is valid and strictly longer |
| Consensus.ResolveConflictsSpec | main.go:187-208 | the peers asked are the registry's validators; replaced exactly when one answers with a valid, strictly longer chain |
| Consensus.ResolveConflictsIdempotent | main.go:180-209 | a second resolution with the same peer answers reports no replacement |
| Api.Mine | api.go:67-111 | refused as non-validator exactly when self is not a validator, and for having mined the tip exactly when self signed it, with no state change; on success the chain grows by one block at the end with index = old length, previous hash = hash of the old tip, transactions = old pool then the reward {"0", self, 1}, signer self (different from the tip's) and a verifying signature; the pool empties |
| Api.MineSucceedsWhenEligible | api.go:93-102 | when RSA-PSS is correct for the node's private key, an eligible mine always succeeds: the self-check failure is unreachable |
| Api.MineKeepsChainValid | api.go:67-111 | mining keeps a valid chain valid, when the published key belongs to the signing key |
| Api.MismatchedKeysBreakChain | api.go:98-107 | with a published key that is not the signing key's public half, a mine succeeds and leaves a chain the validator rejects |
| Api.MineKeepsIndexed | api.go:88-111 | mining keeps every block's index equal to its position |
| Api.MineConservesTransactions | api.go:81-111 | a successful mine moves the pool and then the reward onto the chain and empties the pool; nothing is lost or duplicated between chain and pool |
| Api.GetVerifiedTransactions | api.go:134-141 | the loop returns every block's transactions concatenated in chain order, the chain's recorded transactions |
| Api.MakeNodeValidator | api.go:199-225 | granted exactly when this node's own key (`selfKey`) is a validator, the requester not being identified; then the key is upserted with flag 1 and becomes a validator, no other key's status changes, and chain and pool are kept; a refusal changes nothing |
| Api.FirstNodeScenario | api.go:67-79 | the first node boots as a validator on a valid genesis chain, mines a valid second block, and is refused a consecutive mine |

## Left out

- Hashing and encoding: SHA-256 over JSON, hex, base64, and PEM/PKIX key parsing (main.go:163-174) are abstract functions. Properties that depend on digest collisions, such as "changing a transaction breaks the chain", are out of reach.
- RSA key generation, key files and PEM encoding (rsa.go) are not part of this model. Signing with the node's private key is `Identity.sign`, and checking under its public half is `Identity.verifyOwn`. The node's identity string, read from key.pub, is `Identity.publicKey`.
- The registry's CSV file is not modelled: creating, reading and writing `nodes.csv` (nodes.go:36-50, 83-97, 114). The registry is the list of entries it holds. A missing file is the empty list, or `None` in `AddCurrentNode`. An unparsable flag reads as 0 and an out-of-range one as the clamped extreme. The model allows any integer flag.
- HTTP is not modelled: routing, CORS, JSON request and response encoding (api.go:36-62, 113-128, 146-168, 228-243), and the peer `http.Get` (main.go:188-199). A peer's answer is a `PeerResponse`. A failed request, a non-200 status or an unreadable body is `Unavailable`. Whatever JSON decoding produced is `Fetched`.
- `postNewTransaction` (api.go:173-197) is not modelled separately: it is `Ledger.AddNewTransaction` with a fresh timestamp. Its JSON-error panic is not modelled.
- `makeNodeValidator` slices the promoted key to 9 characters for its reply (api.go:220). That panics for shorter keys, but only after the registry was written. The reply text is not modelled.
- `verifyCurrentChain` and `getChain` (api.go:119-121, 228-236) only call `isValidChain` or return the chain.
- Clocks: `time.Now()` readings are parameters. `Mine` takes two of them, one for the reward transaction and one for the block.
- Concurrency: the code has no lock around mining, resolution or the handlers, so the globals are accessed unsynchronised. The model does not keep that: each operation is one sequential state transition.
- `SignPSS` errors panic (api.go:93-96); the abstract `sign` is total.
- `rsa.SignPSS` is randomised (`rand.Reader`, api.go:93), but `Identity.sign` is a function of the digest. No proved property depends on this, since each mine signs once.
- Integer width: indices and amounts are unbounded. The source's 64-bit `Index + 1` overflow is not modelled.
- Consensus.ResolveSpec, Consensus.Resolve, Consensus.ResolveConflicts and Validator.IsValidChain: a signer key whose decoded bytes hold no parsable PKIX RSA public key makes `parseRsaPublicKeyFromPemStr` return nil, and `rsa.VerifyPSS` at main.go:136 then panics. `makeNodeValidator` accepts any key string, so such a validator can be registered. The source's `resolveConflicts` then aborts the request with the chain unchanged. The model treats that signature as not verifying: it skips the chain and may adopt a later one. The panic is not modelled: the abstract `verify` has no notion of a key that does not parse.

=== FILE: api.dfy ===
/** The state-changing logic of the HTTP handlers of api.go: mining, the
    verified-transaction listing and promotion to validator. Requests and
    responses are left out; each handler becomes a function from the node
    state to the next state and what the handler answers. */
module Api {

  import opened Types
  import opened Registry
  import opened Ledger
  import opened Validator

  /** Why a mine request was refused. */
  datatype MineError =
    | NotAValidator          // this node is not a registered validator
    | MinedLastBlock         // this node signed the current tip
    | SignatureNotVerified   // the fresh signature did not verify under the private key's public half

  datatype MineOutcome = Mined(block: SignedBlock) | Rejected(reason: MineError)

  datatype MineReply = MineReply(state: NodeState, outcome: MineOutcome)

  /** The sender and amount of the mining reward. */
  const RewardSender := "0"
  const RewardAmount := 1

  /** The reward transaction paid to this node. */
  function Reward(self: Identity, now: Time): Transaction
  {
    Transaction(RewardSender, self.publicKey, RewardAmount, now)
  }

  /** mine. Eligibility is checked in order: being a validator, then not
      having signed the tip. Then the reward joins the pool, a block is built
      over the whole pool against the tip's hash, signed and checked with the
      node's own key, and appended while the pool is emptied. The tip is read
      only after the first check, so only a validator needs a non-empty chain.
      `txTime` and `blockTime` are the two readings of the clock. */
  function Mine(c: Crypto, s: NodeState, self: Identity, txTime: Time, blockTime: Time): (r: MineReply)
    requires IsValidator(s.registry, self.publicKey) ==> |s.chain| > 0
    ensures r.outcome == Rejected(NotAValidator) <==> !IsValidator(s.registry, self.publicKey)
    ensures r.outcome == Rejected(MinedLastBlock)
        <==> IsValidator(s.registry, self.publicKey) && Tip(s.chain).signerPublicKey == self.publicKey
    ensures r.outcome.Rejected? && r.outcome.reason != SignatureNotVerified ==> r.state == s
    ensures r.outcome == Rejected(SignatureNotVerified) ==> r.state == s.(pool := s.pool + [Reward(self, txTime)])
    ensures r.outcome.Mined? ==>
      var b := r.outcome.block;
      && |r.state.chain| == |s.chain| + 1
      && r.state.chain[..|s.chain|] == s.chain
      && Tip(r.state.chain) == b
      && b.data.index == |s.chain|
      && b.data.previousHash == c.hex(c.hash(Tip(s.chain).data))
      && b.data.transactions == s.pool + [Reward(self, txTime)]
      && b.signerPublicKey == self.publicKey
      && b.signerPublicKey != Tip(s.chain).signerPublicKey
      && self.verifyOwn(c.hash(b.data), b.signature)
      && r.state.pool == []
      && r.state.registry == s.registry
  {
    if !IsValidator(s.registry, self.publicKey) then
      MineReply(s, Rejected(NotAValidator))
    else
      var lastBlock := Tip(s.chain);
      if lastBlock.signerPublicKey == self.publicKey then
        MineReply(s, Rejected(MinedLastBlock))
      else
        var withReward := AddNewTransaction(s, Reward(self, txTime)).state;
        var previousHash := c.hash(lastBlock.data);
        var block := CreateNewBlock(c, withReward, c.hex(previousHash), false, blockTime).block;
        var blockHash := c.hash(block);
        var signature := self.sign(blockHash);
        if !self.verifyOwn(blockHash, signature) then
          MineReply(withReward, Rejected(SignatureNotVerified))
        else
          var signed := SignedBlock(block, signature, self.publicKey);
          assert (s.chain + [signed])[..|s.chain|] == s.chain;
          MineReply(withReward.(chain := s.chain + [signed], pool := []), Mined(signed))
  }

  /** A validator that did not sign the tip always mines when RSA-PSS is
      correct for its private key: the self-check never fails. */
  lemma MineSucceedsWhenEligible(c: Crypto, s: NodeState, self: Identity, txTime: Time, blockTime: Time)
    requires SignsVerifiably(self)
    requires IsValidator(s.registry, self.publicKey) && |s.chain| > 0
    requires Tip(s.chain).signerPublicKey != self.publicKey
    ensures Mine(c, s, self, txTime, blockTime).outcome.Mined?
  {
  }

  /** Mining keeps a valid chain valid, against the same registry, provided
      the published key is the public half of the signing key: the self-check
      is made under the latter, peers check under the former. */
  lemma MineKeepsChainValid(c: Crypto, s: NodeState, self: Identity, txTime: Time, blockTime: Time)
    requires PublishesOwnKey(c, self)
    requires |s.chain| > 0 && IsValidChain(c, s.registry, s.chain)
    ensures var r := Mine(c, s, self, txTime, blockTime);
      |r.state.chain| > 0 && IsValidChain(c, r.state.registry, r.state.chain)
  {
    var r := Mine(c, s, self, txTime, blockTime);
    if r.outcome.Mined? {
      var b := r.outcome.block;
      assert r.state.chain == s.chain + [b] by {
        assert r.state.chain == r.state.chain[..|s.chain|] + [Tip(r.state.chain)];
      }
      assert Follows(c, s.registry, Tip(s.chain), b);
      ValidAppend(c, s.registry, s.chain, b);
    }
  }

  /** The hypothesis of MineKeepsChainValid cannot be dropped: when the
      published key does not belong to the signing key, the self-check passes
      and the node appends a block that its own validator rejects. */
  lemma MismatchedKeysBreakChain()
    ensures var c := Crypto(b => [], d => "", (k, d, sig) => false);
      var self := Identity("k", d => "s", (d, sig) => true);
      var s := NodeState([SignedBlock(Block(0, 0, [], GenesisPreviousHash), "", "")], [], [Node("u", "k", ValidatorFlag)]);
      var r := Mine(c, s, self, 1, 2);
      && IsValidChain(c, s.registry, s.chain)
      && r.outcome.Mined?
      && !IsValidChain(c, r.state.registry, r.state.chain)
  {
    var registry := [Node("u", "k", ValidatorFlag)];
    assert registry[0].publicKey == "k" && registry[0].isValidator == ValidatorFlag;
    assert IsValidator(registry, "k");
  }

  /** Mining keeps every block's index equal to its position. */
  lemma MineKeepsIndexed(c: Crypto, s: NodeState, self: Identity, txTime: Time, blockTime: Time)
    requires |s.chain| > 0 && IndexedByPosition(s.chain)
    ensures IndexedByPosition(Mine(c, s, self, txTime, blockTime).state.chain)
  {
  }

  /** Pool conservation: a successful mine moves every pooled transaction,
      and then the reward, onto the chain in order and empties the pool; a
      refusal after the reward was pooled keeps it pooled. Between chain and
      pool nothing is lost or duplicated. */
  lemma MineConservesTransactions(c: Crypto, s: NodeState, self: Identity, txTime: Time, blockTime: Time)
    requires IsValidator(s.registry, self.publicKey) ==> |s.chain| > 0
    ensures var r := Mine(c, s, self, txTime, blockTime);
      && (r.outcome.Mined? ==> ChainTransactions(r.state.chain) == ChainTransactions(s.chain) + s.pool + [Reward(self, txTime)]
                               && r.state.pool == [])
      && ChainTransactions(r.state.chain) + r.state.pool
         == ChainTransactions(s.chain) + s.pool
            + (if r.outcome.Mined? || r.outcome == Rejected(SignatureNotVerified) then [Reward(self, txTime)] else [])
  {
  }

  /** getVerifiedTransactions: every block's transactions, concatenated in
      chain order. */
  method GetVerifiedTransactions(chain: seq<SignedBlock>) returns (txs: seq<Transaction>)
    ensures txs == ChainTransactions(chain)
  {
    txs := [];
    var i := 0;
    while i < |chain|
      invariant 0 <= i <= |chain|
      invariant txs == ChainTransactions(chain[..i])
    {
      assert chain[..i + 1] == chain[..i] + [chain[i]];
      ChainTransactionsSnoc(chain[..i], chain[i]);
      txs := txs + chain[i].data.transactions;
      i := i + 1;
    }
    assert chain[..i] == chain;
  }

  /** The outcome of a promotion request: the next state, and whether it was
      carried out. */
  datatype Promotion = Promotion(state: NodeState, granted: bool)

  /** makeNodeValidator: a node promotes only while its own key `selfKey` is
      a validator; the requester is not identified. The promoted node is
      upserted with the validator flag. A refused request changes nothing. */
  function MakeNodeValidator(s: NodeState, selfKey: string, url: string, publicKey: string): (r: Promotion)
    ensures r.granted <==> IsValidator(s.registry, selfKey)
    ensures !r.granted ==> r.state == s
    ensures r.granted ==> && r.state.chain == s.chain
                          && r.state.pool == s.pool
                          && r.state.registry == AddToList(s.registry, [Node(url, publicKey, ValidatorFlag)])
                          && IsValidator(r.state.registry, publicKey)
                          && forall k :: k != publicKey ==> (IsValidator(r.state.registry, k) <==> IsValidator(s.registry, k))
  {
    if IsValidator(s.registry, selfKey) then
      var node := Node(url, publicKey, ValidatorFlag);
      AddToListMakesValidator(s.registry, url, publicKey);
      PromotionKeepsOthers(s.registry, node);
      Promotion(s.(registry := AddToList(s.registry, [node])), true)
    else
      Promotion(s, false)
  }

  lemma PromotionKeepsOthers(registry: seq<Node>, node: Node)
    ensures forall k :: k != node.publicKey ==> (IsValidator(AddToList(registry, [node]), k) <==> IsValidator(registry, k))
  {
    forall k | k != node.publicKey
      ensures IsValidator(AddToList(registry, [node]), k) <==> IsValidator(registry, k)
    {
      AddToListKeepsOtherKeys(registry, node, k);
    }
  }

  /** The first node of a network: with no registry file it registers itself
      as a validator and commits a genesis chain, which is valid; its first
      mine succeeds and leaves a valid chain of two blocks; a second mine
      straight after is refused because it signed the tip, and changes
      nothing. The key must differ from the genesis block's empty signer. */
  lemma FirstNodeScenario(c: Crypto, path: string, self: Identity, t0: Time, t1: Time, t2: Time, t3: Time, t4: Time)
    requires SignsVerifiably(self) && PublishesOwnKey(c, self)
    requires self.publicKey != ""
    ensures var s0 := Startup(c, None, path, self.publicKey, t0);
      var r1 := Mine(c, s0, self, t1, t2);
      && IsValidChain(c, s0.registry, s0.chain)
      && r1.outcome.Mined?
      && |r1.state.chain| == 2
      && IsValidChain(c, r1.state.registry, r1.state.chain)
      && Mine(c, r1.state, self, t3, t4) == MineReply(r1.state, Rejected(MinedLastBlock))
  {
    var s0 := Startup(c, None, path, self.publicKey, t0);
    SingleBlockValid(c, s0.registry, s0.chain[0]);
    assert s0.chain == [s0.chain[0]];
    MineSucceedsWhenEligible(c, s0, self, t1, t2);
    MineKeepsChainValid(c, s0, self, t1, t2);
  }
}

=== FILE: consensus.dfy ===
/** resolveConflicts of main.go: the longest-chain rule. Each validator in the
    registry is asked for its chain; a chain replaces the best one found so
    far only when it is strictly longer and valid, and the local chain is
    replaced by the last one recorded. The HTTP request is a `fetch`
    function from a node's URL to what came back. */
module Consensus {

  import opened Types
  import opened Registry
  import opened Ledger
  import opened Validator

  /** What one peer request produced: a decoded chain, or nothing when the
      request failed, the status was not 200 or the body could not be read. */
  datatype PeerResponse = Fetched(chain: seq<SignedBlock>) | Unavailable

  /** The condition under which a response becomes the new best candidate:
      a chain strictly longer than the best length so far, and valid. */
  predicate Longer(c: Crypto, registry: seq<Node>, response: PeerResponse, maxLength: nat)
  {
    response.Fetched? && |response.chain| > maxLength && IsValidChain(c, registry, response.chain)
  }

  /** The loop over the responses, in registry order, carrying the best
      length and the recorded chain. */
  function Select(c: Crypto, registry: seq<Node>, responses: seq<PeerResponse>, maxLength: nat,
                  best: Option<seq<SignedBlock>>): (r: Option<seq<SignedBlock>>)
    ensures r == best || exists j :: 0 <= j < |responses| && Longer(c, registry, responses[j], maxLength)
                                     && r == Some(responses[j].chain)
    decreases |responses|
  {
    if |responses| == 0 then best
    else if Longer(c, registry, responses[0], maxLength) then
      var r := Select(c, registry, responses[1..], |responses[0].chain|, Some(responses[0].chain));
      assert forall j :: 0 <= j < |responses| - 1 ==> responses[1..][j] == responses[j + 1];
      r
    else
      var r := Select(c, registry, responses[1..], maxLength, best);
      assert forall j :: 0 <= j < |responses| - 1 ==> responses[1..][j] == responses[j + 1];
      r
  }

  /** Response `i` is valid and longer than `maxLength`, no such response is
      longer, and every such response before it is strictly shorter: it is
      the first of maximal length. */
  ghost predicate FirstLongest(c: Crypto, registry: seq<Node>, responses: seq<PeerResponse>, maxLength: nat, i: int)
  {
    && 0 <= i < |responses|
    && Longer(c, registry, responses[i], maxLength)
    && (forall j :: 0 <= j < |responses| && Longer(c, registry, responses[j], maxLength)
           ==> |responses[j].chain| <= |responses[i].chain|)
    && (forall j :: 0 <= j < i && Longer(c, registry, responses[j], maxLength)
           ==> |responses[j].chain| < |responses[i].chain|)
  }

  /** The step of the selection proof when the first response is taken:
      from what the rest of the loop selects against the new best length
      (`k`, or -1), the whole loop's choice is the first response or the
      rest's choice shifted by one. */
  lemma FirstLongestAfterTaken(c: Crypto, registry: seq<Node>, responses: seq<PeerResponse>, maxLength: nat, k: int)
    requires |responses| > 0 && Longer(c, registry, responses[0], maxLength)
    requires -1 <= k < |responses| - 1
    requires k == -1 ==> forall j :: 0 <= j < |responses| - 1 ==> !Longer(c, registry, responses[1..][j], |responses[0].chain|)
    requires k >= 0 ==> FirstLongest(c, registry, responses[1..], |responses[0].chain|, k)
    ensures FirstLongest(c, registry, responses, maxLength, k + 1)
  {
  }

  /** The step of the selection proof when the first response is skipped:
      the rest's choice, shifted by one, is the whole loop's choice. */
  lemma FirstLongestAfterSkipped(c: Crypto, registry: seq<Node>, responses: seq<PeerResponse>, maxLength: nat, k: int)
    requires |responses| > 0 && !Longer(c, registry, responses[0], maxLength)
    requires 0 <= k < |responses| - 1
    requires FirstLongest(c, registry, responses[1..], maxLength, k)
    ensures FirstLongest(c, registry, responses, maxLength, k + 1)
  {
  }

  /** The selection loop records nothing new when no response is valid and
      longer than the starting length, and otherwise ends holding the chain
      of the first response of maximal length. `i` names that response, or
      is -1. */
  lemma {:induction false} SelectSpec(c: Crypto, registry: seq<Node>, responses: seq<PeerResponse>, maxLength: nat,
                                      best: Option<seq<SignedBlock>>) returns (i: int)
    ensures -1 <= i < |responses|
    ensures i == -1 <==> forall j :: 0 <= j < |responses| ==> !Longer(c, registry, responses[j], maxLength)
    ensures i == -1 ==> Select(c, registry, responses, maxLength, best) == best
    ensures i >= 0 ==> && FirstLongest(c, registry, responses, maxLength, i)
                       && Select(c, registry, responses, maxLength, best) == Some(responses[i].chain)
    decreases |responses|
  {
    if |responses| == 0 {
      return -1;
    }
    var head := responses[0];
    var tail := responses[1..];
    if Longer(c, registry, head, maxLength) {
      var k := SelectSpec(c, registry, tail, |head.chain|, Some(head.chain));
      FirstLongestAfterTaken(c, registry, responses, maxLength, k);
      i := k + 1;
      assert k >= 0 ==> responses[i] == tail[k];
    } else {
      var k := SelectSpec(c, registry, tail, maxLength, best);
      if k == -1 {
        i := -1;
        assert forall j :: 1 <= j < |responses| ==> responses[j] == tail[j - 1];
      } else {
        FirstLongestAfterSkipped(c, registry, responses, maxLength, k);
        i := k + 1;
        assert responses[i] == tail[k];
      }
    }
  }

  /** The outcome of a resolution: the next state, and whether the chain
      was replaced. */
  datatype Resolution = Resolution(state: NodeState, replaced: bool)

  /** resolveConflicts over the responses already gathered, with the local
      chain's length as the starting best length. */
  function Resolve(c: Crypto, s: NodeState, responses: seq<PeerResponse>): (r: Resolution)
    ensures r.state.pool == s.pool && r.state.registry == s.registry
    ensures !r.replaced ==> r.state == s
    ensures r.replaced ==> |r.state.chain| > |s.chain| && IsValidChain(c, s.registry, r.state.chain)
  {
    match Select(c, s.registry, responses, |s.chain|, None)
    case Some(newChain) => Resolution(s.(chain := newChain), true)
    case None => Resolution(s, false)
  }

  /** The responses of the given peers, in order. */
  function PeerResponses(peers: seq<Node>, fetch: string -> PeerResponse): (responses: seq<PeerResponse>)
    ensures |responses| == |peers|
    ensures forall i :: 0 <= i < |peers| ==> responses[i] == fetch(peers[i].url)
  {
    seq(|peers|, i requires 0 <= i < |peers| => fetch(peers[i].url))
  }

  /** resolveConflicts: ask every validator of the registry. */
  function ResolveConflicts(c: Crypto, s: NodeState, fetch: string -> PeerResponse): (r: Resolution)
    ensures r.state.pool == s.pool && r.state.registry == s.registry
    ensures !r.replaced ==> r.state == s
    ensures r.replaced ==> |r.state.chain| > |s.chain| && IsValidChain(c, s.registry, r.state.chain)
  {
    Resolve(c, s, PeerResponses(GetNodesList(s.registry, true), fetch))
  }

  /** The chain is replaced exactly when some response is valid and strictly
      longer than the local chain. Then the new chain is valid, strictly
      longer, and the first of maximal length among those responses; only
      the chain changes. Otherwise nothing changes. */
  lemma ResolveSpec(c: Crypto, s: NodeState, responses: seq<PeerResponse>)
    ensures var r := Resolve(c, s, responses);
      && (r.replaced <==> exists j :: 0 <= j < |responses| && Longer(c, s.registry, responses[j], |s.chain|))
      && (!r.replaced ==> r.state == s)
      && (r.replaced ==> && |r.state.chain| > |s.chain|
                         && IsValidChain(c, s.registry, r.state.chain)
                         && r.state.pool == s.pool
                         && r.state.registry == s.registry
                         && exists i :: FirstLongest(c, s.registry, responses, |s.chain|, i)
                                        && r.state.chain == responses[i].chain)
  {
    var i := SelectSpec(c, s.registry, responses, |s.chain|, None);
    if i >= 0 {
      assert FirstLongest(c, s.registry, responses, |s.chain|, i);
    }
  }

  /** A peer chain of the same length as the local one never replaces it,
      however valid: when no response is longer, nothing changes. */
  lemma EqualLengthKeepsLocal(c: Crypto, s: NodeState, responses: seq<PeerResponse>)
    requires forall j :: 0 <= j < |responses| && responses[j].Fetched? ==> |responses[j].chain| <= |s.chain|
    ensures Resolve(c, s, responses) == Resolution(s, false)
  {
    ResolveSpec(c, s, responses);
  }

  /** Resolving a second time against the same responses changes nothing: the
      adopted chain is already at least as long as every valid response. */
  lemma ResolveIdempotent(c: Crypto, s: NodeState, responses: seq<PeerResponse>)
    ensures var s' := Resolve(c, s, responses).state;
      Resolve(c, s', responses) == Resolution(s', false)
  {
    var r := Resolve(c, s, responses);
    ResolveSpec(c, s, responses);
    ResolveSpec(c, r.state, responses);
    if r.replaced {
      var i :| FirstLongest(c, s.registry, responses, |s.chain|, i) && r.state.chain == responses[i].chain;
    }
  }

  /** Some validator of the registry answers with a valid chain strictly
      longer than the local one. */
  ghost predicate ValidatorAhead(c: Crypto, s: NodeState, fetch: string -> PeerResponse)
  {
    exists n :: n in s.registry && n.isValidator == ValidatorFlag && Longer(c, s.registry, fetch(n.url), |s.chain|)
  }

  /** Some response of the validators is valid and strictly longer exactly
      when some validator answers so. */
  lemma ValidatorAheadIff(c: Crypto, s: NodeState, fetch: string -> PeerResponse)
    ensures var responses := PeerResponses(GetNodesList(s.registry, true), fetch);
      (exists j :: 0 <= j < |responses| && Longer(c, s.registry, responses[j], |s.chain|))
      <==> ValidatorAhead(c, s, fetch)
  {
    var peers := GetNodesList(s.registry, true);
    var responses := PeerResponses(peers, fetch);
    if exists j :: 0 <= j < |responses| && Longer(c, s.registry, responses[j], |s.chain|) {
      var j :| 0 <= j < |responses| && Longer(c, s.registry, responses[j], |s.chain|);
      assert peers[j] in peers;
    }
    if ValidatorAhead(c, s, fetch) {
      var n :| n in s.registry && n.isValidator == ValidatorFlag && Longer(c, s.registry, fetch(n.url), |s.chain|);
      assert n in peers;
      var j :| 0 <= j < |peers| && peers[j] == n;
      assert responses[j] == fetch(n.url);
    }
  }

  /** The peers asked are the registry's validators: the chain is replaced
      exactly when one of them answers with a valid chain strictly longer
      than the local one; otherwise nothing changes. */
  lemma ResolveConflictsSpec(c: Crypto, s: NodeState, fetch: string -> PeerResponse)
    ensures ResolveConflicts(c, s, fetch).replaced <==> ValidatorAhead(c, s, fetch)
    ensures !ResolveConflicts(c, s, fetch).replaced ==> ResolveConflicts(c, s, fetch).state == s
  {
    ResolveSpec(c, s, PeerResponses(GetNodesList(s.registry, true), fetch));
    ValidatorAheadIff(c, s, fetch);
  }

  /** A second run with the same peer answers reports no replacement: the
      registry, and so the peers asked, did not change. */
  lemma ResolveConflictsIdempotent(c: Crypto, s: NodeState, fetch: string -> PeerResponse)
    ensures var s' := ResolveConflicts(c, s, fetch).state;
      ResolveConflicts(c, s', fetch) == Resolution(s', false)
  {
    var responses := PeerResponses(GetNodesList(s.registry, true), fetch);
    ResolveSpec(c, s, responses);
    ResolveIdempotent(c, s, responses);
  }
}

=== FILE: ledger.dfy ===
/** The node's state and the ledger operations of main.go: block
    construction, the transaction pool and start-up. The globals `chain` and
    `currentTransactions`, and the registry file, become one immutable state
    value; each operation returns the next state. */
module Ledger {

  import opened Types
  import opened Registry

  /** chain, currentTransactions (the pool) and the registry's contents. */
  datatype NodeState = NodeState(chain: seq<SignedBlock>, pool: seq<Transaction>, registry: seq<Node>)

  /** The previous-hash sentinel of the genesis block. */
  const GenesisPreviousHash := "1"

  /** Every transaction recorded on the chain, block by block in chain order. */
  function ChainTransactions(chain: seq<SignedBlock>): seq<Transaction>
  {
    if |chain| == 0 then [] else ChainTransactions(chain[..|chain| - 1]) + Tip(chain).data.transactions
  }

  /** Each block's index is its position in the chain. */
  predicate IndexedByPosition(chain: seq<SignedBlock>)
  {
    forall i :: 0 <= i < |chain| ==> chain[i].data.index == i
  }

  lemma ChainTransactionsSnoc(chain: seq<SignedBlock>, b: SignedBlock)
    ensures ChainTransactions(chain + [b]) == ChainTransactions(chain) + b.data.transactions
  {
  }

  /** The transactions of a concatenation of chains are the concatenation of
      their transactions: nothing is lost, duplicated or reordered. */
  lemma {:induction false} ChainTransactionsAppend(a: seq<SignedBlock>, b: seq<SignedBlock>)
    ensures ChainTransactions(a + b) == ChainTransactions(a) + ChainTransactions(b)
    decreases |b|
  {
    if |b| == 0 {
      assert a + b == a;
    } else {
      var front := b[..|b| - 1];
      assert a + b == (a + front) + [Tip(b)];
      assert b == front + [Tip(b)];
      ChainTransactionsSnoc(a + front, Tip(b));
      ChainTransactionsSnoc(front, Tip(b));
      ChainTransactionsAppend(a, front);
    }
  }

  /** A transaction is recorded on the chain exactly when some block holds it. */
  lemma {:induction false} ChainTransactionsMembership(chain: seq<SignedBlock>, t: Transaction)
    ensures t in ChainTransactions(chain) <==> exists i :: 0 <= i < |chain| && t in chain[i].data.transactions
    decreases |chain|
  {
    if |chain| > 0 {
      var front := chain[..|chain| - 1];
      ChainTransactionsMembership(front, t);
      assert forall i :: 0 <= i < |front| ==> front[i] == chain[i];
      if t in ChainTransactions(chain) && t !in Tip(chain).data.transactions {
        var i :| 0 <= i < |front| && t in front[i].data.transactions;
        assert chain[i] == front[i];
      }
    }
  }

  /** The result of createNewBlock: the block, and the state after it. */
  datatype Created = Created(state: NodeState, block: Block)

  /** createNewBlock. An empty `previousHash` means "hash the tip", which
      needs a non-empty chain. The block takes the chain length as its index
      and the whole pool, in order, as its transactions; with `addToChain` it
      is appended unsigned and the pool is emptied, otherwise nothing
      changes. Either way no transaction is lost or duplicated between chain
      and pool. */
  function CreateNewBlock(c: Crypto, s: NodeState, previousHash: string, addToChain: bool, now: Time): (r: Created)
    requires previousHash == "" ==> |s.chain| > 0
    ensures r.block.index == |s.chain|
    ensures r.block.transactions == s.pool
    ensures r.block.previousHash == if previousHash == "" then c.hex(c.hash(Tip(s.chain).data)) else previousHash
    ensures addToChain ==> && |r.state.chain| == |s.chain| + 1
                           && r.state.chain[..|s.chain|] == s.chain
                           && Tip(r.state.chain) == SignedBlock(r.block, "", "")
                           && r.state.pool == []
                           && r.state.registry == s.registry
    ensures !addToChain ==> r.state == s
    ensures ChainTransactions(r.state.chain) + r.state.pool == ChainTransactions(s.chain) + s.pool
    ensures IndexedByPosition(s.chain) ==> IndexedByPosition(r.state.chain)
  {
    var prev := if previousHash == "" then c.hex(c.hash(Tip(s.chain).data)) else previousHash;
    var block := Block(|s.chain|, now, s.pool, prev);
    if addToChain then
      var signed := SignedBlock(block, "", "");
      ChainTransactionsSnoc(s.chain, signed);
      assert (s.chain + [signed])[..|s.chain|] == s.chain;
      Created(NodeState(s.chain + [signed], [], s.registry), block)
    else
      Created(s, block)
  }

  /** The result of addNewTransaction: the state after it, and the index of
      the block the transaction is announced for. */
  datatype Submitted = Submitted(state: NodeState, blockIndex: int)

  /** addNewTransaction: the transaction joins the end of the pool; the
      announced index is the tip's index plus one, which is the chain length
      when indices follow positions. Reading the tip needs a non-empty chain. */
  function AddNewTransaction(s: NodeState, tx: Transaction): (r: Submitted)
    requires |s.chain| > 0
    ensures r.state.chain == s.chain && r.state.registry == s.registry
    ensures r.state.pool == s.pool + [tx]
    ensures r.blockIndex == Tip(s.chain).data.index + 1
    ensures IndexedByPosition(s.chain) ==> r.blockIndex == |s.chain|
    ensures ChainTransactions(r.state.chain) + r.state.pool == ChainTransactions(s.chain) + s.pool + [tx]
  {
    Submitted(s.(pool := s.pool + [tx]), Tip(s.chain).data.index + 1)
  }

  /** Start-up (main): register this node, then commit the genesis block
      built from the empty pool with the sentinel previous hash. */
  function Startup(c: Crypto, registryFile: Option<seq<Node>>, path: string, selfKey: string, now: Time): (s: NodeState)
    ensures |s.chain| == 1
    ensures s.chain[0] == SignedBlock(Block(0, now, [], GenesisPreviousHash), "", "")
    ensures s.pool == []
    ensures s.registry == AddCurrentNode(registryFile, path, selfKey)
    ensures IndexedByPosition(s.chain)
  {
    var registry := AddCurrentNode(registryFile, path, selfKey);
    CreateNewBlock(c, NodeState([], [], registry), GenesisPreviousHash, true, now).state
  }
}

=== FILE: registry.dfy ===
/** The node registry of nodes.go: a list of nodes keyed by public key, with a
    validator flag. The CSV file that stores it is replaced by the list it
    holds; a missing file reads as the empty list. */
module Registry {

  import opened Types

  datatype Node = Node(url: string, publicKey: string, isValidator: int)

  /** The flag value that marks a validator; any other integer does not. */
  const ValidatorFlag := 1

  /** Some entry carries `key`. */
  predicate HasKey(nodes: seq<Node>, key: string)
  {
    exists i :: 0 <= i < |nodes| && nodes[i].publicKey == key
  }

  /** Some entry carries `key` and the validator flag. */
  predicate IsValidator(nodes: seq<Node>, key: string)
  {
    exists i :: 0 <= i < |nodes| && nodes[i].publicKey == key && nodes[i].isValidator == ValidatorFlag
  }

  /** The keys of the list, position by position. */
  function Keys(nodes: seq<Node>): (keys: seq<string>)
    ensures |keys| == |nodes|
    ensures forall i :: 0 <= i < |nodes| ==> keys[i] == nodes[i].publicKey
  {
    seq(|nodes|, i requires 0 <= i < |nodes| => nodes[i].publicKey)
  }

  lemma KeysMembership(nodes: seq<Node>, key: string)
    ensures key in Keys(nodes) <==> HasKey(nodes, key)
  {
  }

  // ---------------------------------------------------------------------
  // Lookups

  /** stringInSlice: a linear scan for `a`. */
  method StringInSlice(a: string, list: seq<string>) returns (found: bool)
    ensures found <==> a in list
  {
    var i := 0;
    while i < |list|
      invariant 0 <= i <= |list|
      invariant a !in list[..i]
    {
      if list[i] == a {
        return true;
      }
      i := i + 1;
    }
    assert list[..i] == list;
    return false;
  }

  /** checkPubkeyExists: a linear scan of the whole registry for the key. */
  method CheckPubkeyExists(registry: seq<Node>, pubKey: string) returns (found: bool)
    ensures found <==> HasKey(registry, pubKey)
  {
    var i := 0;
    while i < |registry|
      invariant 0 <= i <= |registry|
      invariant forall j :: 0 <= j < i ==> registry[j].publicKey != pubKey
    {
      if pubKey == registry[i].publicKey {
        return true;
      }
      i := i + 1;
    }
    return false;
  }

  /** checkIfValidator: a scan that keeps going past entries with the key but
      without the flag, so a later flagged entry with the same key counts. */
  method CheckIfValidator(registry: seq<Node>, pubKey: string) returns (found: bool)
    ensures found <==> IsValidator(registry, pubKey)
  {
    var i := 0;
    while i < |registry|
      invariant 0 <= i <= |registry|
      invariant forall j :: 0 <= j < i ==> !(registry[j].publicKey == pubKey && registry[j].isValidator == ValidatorFlag)
    {
      if pubKey == registry[i].publicKey {
        if registry[i].isValidator == ValidatorFlag {
          return true;
        }
      }
      i := i + 1;
    }
    return false;
  }

  // ---------------------------------------------------------------------
  // Listing

  /** The flagged entries, in registry order. */
  function FilterValidators(nodes: seq<Node>): (r: seq<Node>)
    ensures |r| <= |nodes|
    ensures forall n :: n in r <==> n in nodes && n.isValidator == ValidatorFlag
  {
    if |nodes| == 0 then []
    else
      var rest := FilterValidators(nodes[1..]);
      assert forall n :: n in nodes <==> n == nodes[0] || n in nodes[1..];
      if nodes[0].isValidator == ValidatorFlag then [nodes[0]] + rest else rest
  }

  /** getNodesList: the whole registry, or only its validators. */
  function GetNodesList(registry: seq<Node>, validatorsOnly: bool): (nodes: seq<Node>)
    ensures !validatorsOnly ==> nodes == registry
    ensures forall n :: n in nodes <==> n in registry && (validatorsOnly ==> n.isValidator == ValidatorFlag)
  {
    if validatorsOnly then FilterValidators(registry) else registry
  }

  /** Filtering keeps the order of the registry: it distributes over
      concatenation, so the entries kept from an earlier part of the list come
      before those kept from a later part. */
  lemma {:induction false} FilterValidatorsAppend(a: seq<Node>, b: seq<Node>)
    ensures FilterValidators(a + b) == FilterValidators(a) + FilterValidators(b)
    decreases |a|
  {
    if |a| == 0 {
      assert a + b == b;
    } else {
      assert (a + b)[1..] == a[1..] + b;
      FilterValidatorsAppend(a[1..], b);
    }
  }

  /** The validators-only list keeps exactly the flagged entries, each where
      it was relative to the others: one entry contributes itself or nothing. */
  lemma GetNodesListOrder(a: seq<Node>, n: Node, b: seq<Node>)
    ensures GetNodesList(a + [n] + b, true)
         == GetNodesList(a, true)
            + (if n.isValidator == ValidatorFlag then [n] else [])
            + GetNodesList(b, true)
  {
    FilterValidatorsAppend(a + [n], b);
    FilterValidatorsAppend(a, [n]);
    assert [n][1..] == [];
    assert FilterValidators([n]) == (if n.isValidator == ValidatorFlag then [n] else []);
  }

  // ---------------------------------------------------------------------
  // Upsert

  /** The position of the first entry carrying `key`. */
  function FirstWithKey(nodes: seq<Node>, key: string): (i: nat)
    requires HasKey(nodes, key)
    ensures i < |nodes| && nodes[i].publicKey == key
    ensures forall j :: 0 <= j < i ==> nodes[j].publicKey != key
  {
    if nodes[0].publicKey == key then 0
    else
      assert HasKey(nodes[1..], key) by {
        var i :| 0 <= i < |nodes| && nodes[i].publicKey == key;
        assert nodes[1..][i - 1] == nodes[i];
      }
      1 + FirstWithKey(nodes[1..], key)
  }

  /** The inner loop of addToList: overwrite the first entry with the new
      node's key, or change nothing when no entry has it. */
  function ReplaceFirst(nodes: seq<Node>, node: Node): (r: seq<Node>)
    ensures HasKey(nodes, node.publicKey) ==> r == nodes[FirstWithKey(nodes, node.publicKey) := node]
    ensures !HasKey(nodes, node.publicKey) ==> r == nodes
  {
    if |nodes| == 0 then []
    else if nodes[0].publicKey == node.publicKey then [node] + nodes[1..]
    else
      assert HasKey(nodes, node.publicKey) <==> HasKey(nodes[1..], node.publicKey) by {
        if HasKey(nodes, node.publicKey) {
          var i :| 0 <= i < |nodes| && nodes[i].publicKey == node.publicKey;
          assert nodes[1..][i - 1] == nodes[i];
        }
      }
      [nodes[0]] + ReplaceFirst(nodes[1..], node)
  }

  /** One iteration of addToList's outer loop: append a node whose key is not
      in the snapshot, otherwise overwrite the first entry with its key. */
  function Step(all: seq<Node>, pubKeys: seq<string>, node: Node): seq<Node>
  {
    if node.publicKey !in pubKeys then all + [node] else ReplaceFirst(all, node)
  }

  /** The outer loop of addToList, over the new nodes in order. `pubKeys` is
      the snapshot of the keys taken before the loop: a node whose key is not
      in it is appended even when an earlier new node added that key. */
  function Merge(all: seq<Node>, pubKeys: seq<string>, newNodes: seq<Node>): seq<Node>
    decreases |newNodes|
  {
    if |newNodes| == 0 then all
    else Merge(Step(all, pubKeys, newNodes[0]), pubKeys, newNodes[1..])
  }

  /** addToList: insert-or-update by public key, keys snapshotted first. The
      result is the registry with the entries of registered keys overwritten
      in place, followed by the nodes whose key was not registered. */
  function AddToList(registry: seq<Node>, newNodes: seq<Node>): (r: seq<Node>)
    ensures r == Overwritten(registry, Keys(registry), newNodes) + Fresh(newNodes, Keys(registry))
  {
    MergeFromSnapshot(registry, newNodes);
    Merge(registry, Keys(registry), newNodes)
  }

  /** addToList's loop run from the registry against the registry's own keys
      overwrites in place and appends the fresh nodes. */
  lemma MergeFromSnapshot(registry: seq<Node>, newNodes: seq<Node>)
    ensures Merge(registry, Keys(registry), newNodes)
         == Overwritten(registry, Keys(registry), newNodes) + Fresh(newNodes, Keys(registry))
  {
    var keys := Keys(registry);
    var updated := Overwritten(registry, keys, newNodes);
    MergeSplits(registry, [], keys, newNodes);
    assert registry + [] == registry;
    assert updated + [] == updated;
  }

  /** The new nodes whose key is not in `keys`, in order: the entries addToList
      appends. */
  function Fresh(newNodes: seq<Node>, keys: seq<string>): (r: seq<Node>)
    ensures |r| <= |newNodes|
  {
    if |newNodes| == 0 then []
    else (if newNodes[0].publicKey !in keys then [newNodes[0]] else []) + Fresh(newNodes[1..], keys)
  }

  /** The registered entries after the updates of addToList: each new node
      whose key is in the snapshot overwrites the first entry with its key. */
  function Overwritten(registered: seq<Node>, pubKeys: seq<string>, newNodes: seq<Node>): seq<Node>
    decreases |newNodes|
  {
    if |newNodes| == 0 then registered
    else
      var node := newNodes[0];
      Overwritten(if node.publicKey in pubKeys then ReplaceFirst(registered, node) else registered,
                  pubKeys, newNodes[1..])
  }

  /** Overwriting the first entry with a key keeps every position's key. */
  lemma ReplaceFirstKeepsKeys(nodes: seq<Node>, node: Node)
    ensures Keys(ReplaceFirst(nodes, node)) == Keys(nodes)
  {
  }

  /** The first entry with a key lies before anything appended after it. */
  lemma ReplaceFirstConcat(pre: seq<Node>, post: seq<Node>, node: Node)
    requires HasKey(pre, node.publicKey)
    ensures ReplaceFirst(pre + post, node) == ReplaceFirst(pre, node) + post
  {
    var k :| 0 <= k < |pre| && pre[k].publicKey == node.publicKey;
    assert (pre + post)[k] == pre[k];
    var f := FirstWithKey(pre + post, node.publicKey);
    var g := FirstWithKey(pre, node.publicKey);
    assert (pre + post)[g] == pre[g];
    assert (pre + post)[f] == pre[f];
    assert f == g;
    assert (pre + post)[f := node] == pre[f := node] + post;
  }

  /** addToList's loop, run over the registered entries followed by entries
      it has appended, leaves the registered part overwritten in place and
      appends the fresh nodes after everything already appended. */
  lemma {:induction false} MergeSplits(registered: seq<Node>, appended: seq<Node>, pubKeys: seq<string>, newNodes: seq<Node>)
    requires Keys(registered) == pubKeys
    ensures Merge(registered + appended, pubKeys, newNodes)
         == Overwritten(registered, pubKeys, newNodes) + appended + Fresh(newNodes, pubKeys)
    decreases |newNodes|
  {
    if |newNodes| == 0 {
      assert registered + appended + [] == registered + appended;
    } else {
      var node := newNodes[0];
      var tail := newNodes[1..];
      if node.publicKey in pubKeys {
        KeysMembership(registered, node.publicKey);
        ReplaceFirstConcat(registered, appended, node);
        var updated := ReplaceFirst(registered, node);
        ReplaceFirstKeepsKeys(registered, node);
        assert Step(registered + appended, pubKeys, node) == updated + appended;
        MergeSplits(updated, appended, pubKeys, tail);
      } else {
        assert Step(registered + appended, pubKeys, node) == registered + (appended + [node]);
        MergeSplits(registered, appended + [node], pubKeys, tail);
        assert Fresh(newNodes, pubKeys) == [node] + Fresh(tail, pubKeys);
        assert registered + (appended + [node]) == registered + appended + [node];
      }
    }
  }

  /** The updates keep the length and every position's key, and leave alone
      every entry whose key no new node carries. */
  lemma {:induction false} OverwrittenInPlace(registered: seq<Node>, pubKeys: seq<string>, newNodes: seq<Node>)
    ensures |Overwritten(registered, pubKeys, newNodes)| == |registered|
    ensures forall i :: 0 <= i < |registered| ==>
      Overwritten(registered, pubKeys, newNodes)[i].publicKey == registered[i].publicKey
    ensures forall i :: 0 <= i < |registered| && !HasKey(newNodes, registered[i].publicKey) ==>
      Overwritten(registered, pubKeys, newNodes)[i] == registered[i]
    decreases |newNodes|
  {
    if |newNodes| > 0 {
      var node := newNodes[0];
      var tail := newNodes[1..];
      var next := if node.publicKey in pubKeys then ReplaceFirst(registered, node) else registered;
      ReplaceFirstKeepsKeys(registered, node);
      assert forall i :: 0 <= i < |registered| ==> next[i].publicKey == Keys(next)[i] == registered[i].publicKey;
      OverwrittenInPlace(next, pubKeys, tail);
      forall i | 0 <= i < |registered| && !HasKey(newNodes, registered[i].publicKey)
        ensures Overwritten(registered, pubKeys, newNodes)[i] == registered[i]
      {
        assert newNodes[0] == node;
        assert next[i] == registered[i];
        assert !HasKey(tail, registered[i].publicKey);
      }
    }
  }

  /** A node whose key is already registered replaces the first entry with
      that key, in place; the length and every other position are kept. */
  lemma AddToListReplaces(registry: seq<Node>, node: Node)
    requires HasKey(registry, node.publicKey)
    ensures AddToList(registry, [node]) == registry[FirstWithKey(registry, node.publicKey) := node]
  {
    KeysMembership(registry, node.publicKey);
    assert Merge(registry, Keys(registry), [node]) == Merge(ReplaceFirst(registry, node), Keys(registry), []);
  }

  /** A node whose key is not registered is appended at the end. */
  lemma AddToListAppends(registry: seq<Node>, node: Node)
    requires !HasKey(registry, node.publicKey)
    ensures AddToList(registry, [node]) == registry + [node]
  {
    KeysMembership(registry, node.publicKey);
    assert Merge(registry, Keys(registry), [node]) == Merge(registry + [node], Keys(registry), []);
  }

  /** The keys are snapshotted before the loop: new nodes whose keys were all
      unregistered are all appended, in order, even when two of them share a
      key. Nothing registered before changes. */
  lemma AddToListSnapshot(registry: seq<Node>, newNodes: seq<Node>)
    requires forall j :: 0 <= j < |newNodes| ==> !HasKey(registry, newNodes[j].publicKey)
    ensures AddToList(registry, newNodes) == registry + newNodes
  {
    var pk := Keys(registry);
    FreshAll(newNodes, registry);
    OverwrittenInPlace(registry, pk, newNodes);
    var o := Overwritten(registry, pk, newNodes);
    forall i | 0 <= i < |registry|
      ensures o[i] == registry[i]
    {
      assert !HasKey(newNodes, registry[i].publicKey);
    }
    assert o == registry;
  }

  lemma {:induction false} FreshAll(newNodes: seq<Node>, registry: seq<Node>)
    requires forall j :: 0 <= j < |newNodes| ==> !HasKey(registry, newNodes[j].publicKey)
    ensures Fresh(newNodes, Keys(registry)) == newNodes
    decreases |newNodes|
  {
    if |newNodes| > 0 {
      KeysMembership(registry, newNodes[0].publicKey);
      FreshAll(newNodes[1..], registry);
      assert newNodes == [newNodes[0]] + newNodes[1..];
    }
  }

  /** In general addToList appends exactly the nodes whose key was not
      registered before the call, keeps the keys of the registered entries
      and leaves alone every entry whose key no new node carries. */
  lemma AddToListShape(registry: seq<Node>, newNodes: seq<Node>)
    ensures var r := AddToList(registry, newNodes);
      && |r| == |registry| + |Fresh(newNodes, Keys(registry))|
      && r[|registry|..] == Fresh(newNodes, Keys(registry))
      && (forall i :: 0 <= i < |registry| ==> r[i].publicKey == registry[i].publicKey)
      && (forall i :: 0 <= i < |registry| && !HasKey(newNodes, registry[i].publicKey) ==> r[i] == registry[i])
  {
    var pk := Keys(registry);
    OverwrittenInPlace(registry, pk, newNodes);
  }

  /** Promoting a key makes it a validator, whether it was registered or not. */
  lemma AddToListMakesValidator(registry: seq<Node>, url: string, key: string)
    ensures IsValidator(AddToList(registry, [Node(url, key, ValidatorFlag)]), key)
  {
    var node := Node(url, key, ValidatorFlag);
    if HasKey(registry, key) {
      AddToListReplaces(registry, node);
      var f := FirstWithKey(registry, key);
      assert AddToList(registry, [node])[f] == node;
    } else {
      AddToListAppends(registry, node);
      assert AddToList(registry, [node])[|registry|] == node;
    }
  }

  /** Upserting one node changes nothing about any other key: validators stay
      validators and non-validators stay non-validators. */
  lemma AddToListKeepsOtherKeys(registry: seq<Node>, node: Node, key: string)
    requires key != node.publicKey
    ensures IsValidator(AddToList(registry, [node]), key) <==> IsValidator(registry, key)
  {
    var r := AddToList(registry, [node]);
    if HasKey(registry, node.publicKey) {
      AddToListReplaces(registry, node);
      var f := FirstWithKey(registry, node.publicKey);
      if IsValidator(registry, key) {
        var i :| 0 <= i < |registry| && registry[i].publicKey == key && registry[i].isValidator == ValidatorFlag;
        assert r[i] == registry[i];
      }
      if IsValidator(r, key) {
        var i :| 0 <= i < |r| && r[i].publicKey == key && r[i].isValidator == ValidatorFlag;
        assert r[i] == registry[i];
      }
    } else {
      AddToListAppends(registry, node);
      if IsValidator(registry, key) {
        var i :| 0 <= i < |registry| && registry[i].publicKey == key && registry[i].isValidator == ValidatorFlag;
        assert r[i] == registry[i];
      }
      if IsValidator(r, key) {
        var i :| 0 <= i < |r| && r[i].publicKey == key && r[i].isValidator == ValidatorFlag;
        assert i < |registry|;
        assert r[i] == registry[i];
      }
    }
  }

  /** addCurrentNode: register this node under its own key, as a validator if
      the registry file did not exist yet (`None`), otherwise as a
      non-validator. A missing file reads as the empty registry. */
  function AddCurrentNode(registryFile: Option<seq<Node>>, path: string, selfKey: string): (r: seq<Node>)
    ensures HasKey(r, selfKey)
    ensures registryFile.None? ==> r == [Node(path, selfKey, ValidatorFlag)] && IsValidator(r, selfKey)
    ensures registryFile.Some? ==> r[FirstWithKey(r, selfKey)] == Node(path, selfKey, 0)
  {
    var registry := if registryFile.Some? then registryFile.value else [];
    var flag := if registryFile.None? then ValidatorFlag else 0;
    var node := Node(path, selfKey, flag);
    var r := AddToList(registry, [node]);
    if HasKey(registry, selfKey) then
      AddToListReplaces(registry, node);
      FirstWithKeyAfterReplace(registry, node);
      assert r[FirstWithKey(registry, selfKey)] == node;
      r
    else
      AddToListAppends(registry, node);
      assert r[|registry|] == node;
      assert HasKey(r, selfKey);
      FirstWithKeyAfterAppend(registry, node);
      r
  }

  lemma FirstWithKeyAfterReplace(registry: seq<Node>, node: Node)
    requires HasKey(registry, node.publicKey)
    ensures var f := FirstWithKey(registry, node.publicKey);
      HasKey(registry[f := node], node.publicKey)
      && FirstWithKey(registry[f := node], node.publicKey) == f
  {
    var f := FirstWithKey(registry, node.publicKey);
    var u := registry[f := node];
    assert u[f].publicKey == node.publicKey;
  }

  lemma FirstWithKeyAfterAppend(registry: seq<Node>, node: Node)
    requires !HasKey(registry, node.publicKey)
    ensures HasKey(registry + [node], node.publicKey)
    ensures FirstWithKey(registry + [node], node.publicKey) == |registry|
  {
    var u := registry + [node];
    assert u[|registry|] == node;
  }
}

=== FILE: types.dfy ===
/** The ledger's records (main.go) and the cryptographic primitives the node
    uses but does not define. Hashing, hex encoding, signing and verifying are
    not modelled concretely: they are values of function type handed to every
    operation that needs them, so every property proved here holds whatever
    SHA-256, hex, base64 and RSA-PSS actually compute, given the hypotheses
    `SignsVerifiably` and `PublishesOwnKey` where a lemma requires them. */
module Types {

  /** A value that may be absent: a registry file that does not exist, a
      peer chain that was not selected. */
  datatype Option<+T> = None | Some(value: T)

  /** Go's time.Time. Instants are opaque: nothing in the core inspects them. */
  type Time = int

  /** The raw bytes of a SHA-256 digest. */
  type Digest = seq<bv8>

  datatype Transaction = Transaction(sender: string, recipient: string, amount: int, timestamp: Time)

  datatype Block = Block(index: int, timestamp: Time, transactions: seq<Transaction>, previousHash: string)

  /** A block plus proof of origin; both strings are empty for the genesis block. */
  datatype SignedBlock = SignedBlock(data: Block, signature: string, signerPublicKey: string)

  /** The primitives shared by every node:
      - hash: SHA-256 over the JSON encoding of a block,
      - hex: hex encoding of a digest,
      - verify: decode the base64 signature and signer key, parse the key and
        check an RSA-PSS signature over a digest. Decoding errors are ignored:
        whatever the decoder returns, a partial result included, is what gets
        checked, so decoding is part of verify. When the decoded key bytes
        hold no parsable PKIX RSA public key the source panics rather than
        answer; verify is false there (see README, "Left out"). */
  datatype Crypto = Crypto(
    hash: Block -> Digest,
    hex: Digest -> string,
    verify: (string, Digest, string) -> bool)

  /** This node, as loaded from its two key files:
      - publicKey: the public key read from key.pub, as the base64 identity
        string stamped on its blocks and registry entry,
      - sign: RSA-PSS with the private key read from key.pem, then base64,
      - verifyOwn: RSA-PSS verification under the public half of that private
        key, the check mine makes of its own signature. */
  datatype Identity = Identity(publicKey: string, sign: Digest -> string, verifyOwn: (Digest, string) -> bool)

  /** The correctness of RSA-PSS for this node's private key: what it signs,
      the key's public half verifies. */
  ghost predicate SignsVerifiably(self: Identity)
  {
    forall d: Digest :: self.verifyOwn(d, self.sign(d))
  }

  /** The two key files belong together: every signature the private key's
      public half accepts is also accepted under the published key. Nothing
      in the node checks this; a key pair generated by the node itself has it. */
  ghost predicate PublishesOwnKey(c: Crypto, self: Identity)
  {
    forall d: Digest, sig: string :: self.verifyOwn(d, sig) ==> c.verify(self.publicKey, d, sig)
  }

  /** The last block of a chain. */
  function Tip(chain: seq<SignedBlock>): SignedBlock
    requires |chain| > 0
  {
    chain[|chain| - 1]
  }
}

=== FILE: validator.dfy ===
/** isValidChain of main.go: a walk over a chain that checks every block
    against the one before it. The genesis block itself is never checked. */
module Validator {

  import opened Types
  import opened Registry

  /** The four checks made of `block` against the block before it: the
      previous-hash link, a signer different from the previous signer, a
      registered validator as signer, and a signature that verifies over the
      block's hash. */
  predicate Follows(c: Crypto, registry: seq<Node>, last: SignedBlock, block: SignedBlock)
  {
    && block.data.previousHash == c.hex(c.hash(last.data))
    && last.signerPublicKey != block.signerPublicKey
    && IsValidator(registry, block.signerPublicKey)
    && c.verify(block.signerPublicKey, c.hash(block.data), block.signature)
  }

  /** The loop of isValidChain: `last` is the block checked most recently,
      `rest` the blocks still to check; the first failing check ends the walk. */
  function Walk(c: Crypto, registry: seq<Node>, last: SignedBlock, rest: seq<SignedBlock>): bool
    decreases |rest|
  {
    |rest| == 0 || (Follows(c, registry, last, rest[0]) && Walk(c, registry, rest[0], rest[1..]))
  }

  /** isValidChain. The source reads the first block unguarded, so the chain
      must not be empty. The walk accepts a chain exactly when every block
      follows its predecessor: no block escapes a check, and the walk's early
      exit rejects nothing that passes them all. */
  function IsValidChain(c: Crypto, registry: seq<Node>, chain: seq<SignedBlock>): (valid: bool)
    requires |chain| > 0
    ensures valid <==> AllLinked(c, registry, chain)
  {
    WalkAllLinked(c, registry, chain[0], chain[1..]);
    assert [chain[0]] + chain[1..] == chain;
    Walk(c, registry, chain[0], chain[1..])
  }

  /** The reference definition: every block follows its predecessor. */
  ghost predicate AllLinked(c: Crypto, registry: seq<Node>, chain: seq<SignedBlock>)
  {
    forall i :: 1 <= i < |chain| ==> Follows(c, registry, chain[i - 1], chain[i])
  }

  /** A chain with a block in front is linked exactly when the block's
      successor follows it and the rest is linked. */
  lemma LinkedCons(c: Crypto, registry: seq<Node>, last: SignedBlock, rest: seq<SignedBlock>)
    requires |rest| > 0
    ensures AllLinked(c, registry, [last] + rest)
        <==> Follows(c, registry, last, rest[0]) && AllLinked(c, registry, rest)
  {
    var chain := [last] + rest;
    assert forall i :: 1 <= i < |rest| ==> rest[i - 1] == chain[i] && rest[i] == chain[i + 1];
    if AllLinked(c, registry, chain) {
      assert Follows(c, registry, chain[0], chain[1]);
      forall i | 1 <= i < |rest|
        ensures Follows(c, registry, rest[i - 1], rest[i])
      {
        assert Follows(c, registry, chain[i], chain[i + 1]);
      }
    }
    if Follows(c, registry, last, rest[0]) && AllLinked(c, registry, rest) {
      forall i | 1 <= i < |chain|
        ensures Follows(c, registry, chain[i - 1], chain[i])
      {
        if i > 1 {
          assert Follows(c, registry, rest[i - 2], rest[i - 1]);
        }
      }
    }
  }

  lemma {:induction false} WalkAllLinked(c: Crypto, registry: seq<Node>, last: SignedBlock, rest: seq<SignedBlock>)
    ensures Walk(c, registry, last, rest) <==> AllLinked(c, registry, [last] + rest)
    decreases |rest|
  {
    if |rest| > 0 {
      WalkAllLinked(c, registry, rest[0], rest[1..]);
      assert [rest[0]] + rest[1..] == rest;
      LinkedCons(c, registry, last, rest);
    }
  }

  /** What a valid chain guarantees of each block after the genesis block. */
  lemma ValidChainBlock(c: Crypto, registry: seq<Node>, chain: seq<SignedBlock>, i: int)
    requires |chain| > 0 && IsValidChain(c, registry, chain)
    requires 1 <= i < |chain|
    ensures chain[i].data.previousHash == c.hex(c.hash(chain[i - 1].data))
    ensures chain[i].signerPublicKey != chain[i - 1].signerPublicKey
    ensures IsValidator(registry, chain[i].signerPublicKey)
    ensures c.verify(chain[i].signerPublicKey, c.hash(chain[i].data), chain[i].signature)
  {
    assert Follows(c, registry, chain[i - 1], chain[i]);
  }

  /** A chain of one block is valid whatever the block holds. */
  lemma SingleBlockValid(c: Crypto, registry: seq<Node>, b: SignedBlock)
    ensures IsValidChain(c, registry, [b])
  {
  }

  /** Appending one block keeps a chain valid exactly when the block passes
      the four checks against the current tip. */
  lemma ValidAppend(c: Crypto, registry: seq<Node>, chain: seq<SignedBlock>, b: SignedBlock)
    requires |chain| > 0
    ensures IsValidChain(c, registry, chain + [b])
        <==> IsValidChain(c, registry, chain) && Follows(c, registry, Tip(chain), b)
  {
    var ext := chain + [b];
    assert forall i :: 0 <= i < |chain| ==> ext[i] == chain[i];
    assert ext[|chain|] == b;
    if AllLinked(c, registry, ext) {
      assert Follows(c, registry, ext[|chain| - 1], ext[|chain|]);
      forall i | 1 <= i < |chain|
        ensures Follows(c, registry, chain[i - 1], chain[i])
      {
        assert Follows(c, registry, ext[i - 1], ext[i]);
      }
    }
    if AllLinked(c, registry, chain) && Follows(c, registry, Tip(chain), b) {
      forall i | 1 <= i < |ext|
        ensures Follows(c, registry, ext[i - 1], ext[i])
      {
        if i < |chain| {
          assert Follows(c, registry, chain[i - 1], chain[i]);
        }
      }
    }
  }

  /** Validity is closed under taking non-empty prefixes. */
  lemma ValidPrefix(c: Crypto, registry: seq<Node>, chain: seq<SignedBlock>, n: int)
    requires |chain| > 0 && IsValidChain(c, registry, chain)
    requires 0 < n <= |chain|
    ensures IsValidChain(c, registry, chain[..n])
  {
    var pre := chain[..n];
    forall i | 1 <= i < n
      ensures Follows(c, registry, pre[i - 1], pre[i])
    {
      assert Follows(c, registry, chain[i - 1], chain[i]);
    }
  }
}
